=== FILE: README.md ===
# EEUMEL dispatcher and agents, modelled in Dafny

EEUMEL answers free-text queries with one of two agents: a weather agent and a
car-manual (knowledge-base) agent. A dispatcher asks a language model which
agent should answer. This project models the decision logic under the Flask,
LangChain, spaCy and HTTP glue, and proves properties of it:

- **Dispatcher** (`eeumel_v2.py`, `MultiAgentSystem.process_query`). It asks
  the selection chain again until the reply contains `|`. It splits the reply
  at the first `|` and strips both halves with Python's `str.strip()`. Then it
  routes on an exact match of the agent name.
- **Weather pipeline**, in two variants. Both run the same three stages:
  extract the first GPE entity, geocode it, fetch the current weather. The
  stages are defined once (`WeatherStages.RunStages`).
  - `WeatherV2` is the agent in `eeumel_v2.py`. It catches nothing, so any
    collaborator exception escapes, and both early exits say
    "Location not found.".
  - `WeatherAgent` is `agents/WeatherAgent.py`. It adds an availability gate
    set at construction, a catch-all and one German message per outcome.
- **Car-manual responder** (`eeumel_v2.py`, `get_car_manual_response`). It
  makes one chain run against a `chat_history` that starts empty and is never
  appended to.
- **Knowledge turn** (`app/routes.py`, `query`). It checks, in this order: the
  question is non-empty, the chat model loaded, the index loaded. It then runs
  the chain on the history as it stood before the request. Only an answered
  request appends one (question, answer) pair. `KnowledgeTurn.Serve` models a
  sequence of requests against the process-wide history.

Foreign calls become function-typed parameters whose results are datatypes:

- spaCy → `Parse`: the entities, or an exception.
- OpenWeatherMap geocoding → `WeatherV2.GeoReply`.
- Nominatim → `WeatherAgent.Geocoded`.
- Open-Meteo → `Fetched`.
- LangChain chains → `ChainOutcome`.
- The selection chain → a sequence of `Dispatcher.Completion`s.

Every pipeline returns the list of collaborator calls it made (`Call`). So
"no geocoding and no fetch" is a statement about that list.

Two Python truthiness tests are modelled explicitly:

- `if not city` fails for `None` and for `""` (`WeatherStages.Recognised`).
- `if not latitude or not longitude` fails for `None` and for a zero
  coordinate (`WeatherStages.Located`). A place whose latitude or longitude
  is exactly 0.0 is therefore reported as not found, as the code does.

Status codes appear in messages as Python's `str(int)` (`Numerals.Decimal`).
`Numerals.DecimalInjective` shows that different statuses give different
messages.

Behaviour of the code worth knowing:

- `app/routes.py` checks for an empty question before the two availability
  checks.
- Both weather agents write the success sentence in German, as
  "Die aktuelle Temperatur in <city> beträgt <temp>°C.".
- The single-file weather agent does not name the place when geocoding fails.
  It also lets exceptions escape (`WeatherV2.RaisesExactlyOnCollaboratorFailure`).
- The dispatcher's knowledge route calls `get_car_manual_response`. That
  function always passes an empty history and does not catch chain exceptions.

## Model

| member | source | states |
|---|---|---|
| Text.Strip | eeumel_v2.py:112-115 | the stripped name/query has no whitespace at either end and is a slice of the input with only whitespace cut off on both sides |
| Text.StripIgnoresPadding | eeumel_v2.py:112-115 | adding whitespace at either end never changes the stripped text |
| Text.StripKeepsUnpadded | eeumel_v2.py:112-115 | a string with no outer whitespace is unchanged by stripping |
| Text.SplitAtFirst | eeumel_v2.py:110 | `split("\|", 1)` gives two parts exactly when the reply contains the separator; name + separator + rest is the reply, and the name has no separator |
| Text.SplitJoin | eeumel_v2.py:110 | splitting `name + "\|" + rest` at the first separator gives back `name` and `rest` when `name` has no separator |
| Text.FirstWhere | eeumel_v2.py:106-108 | the index found is the first element passing the test; none is found only when no element passes |
| Text.FirstWhereAfter | eeumel_v2.py:106-108 | after a run of failing elements, the next passing element is the one found, whatever follows it |
| Numerals.DigitsRoundTrip | agents/WeatherAgent.py:40 | reading back the decimal digits of a status gives the status |
| Numerals.DecimalInjective | agents/WeatherAgent.py:40 | different status codes render as different decimal texts |
| Collaborators.FirstPlace | eeumel_v2.py:72-75 | the city is the text of the first GPE entity in entity order; none exactly when no entity is labelled GPE |
| Collaborators.FirstPlaceAfter | agents/WeatherAgent.py:52-55 | non-GPE entities before the first GPE entity are skipped; entities after it do not matter |
| WeatherStages.FetchStage | agents/WeatherAgent.py:38-43 | a non-200 status becomes a status outcome carrying that status; a 200 response with a temperature becomes the temperature report; a transport failure or missing field becomes a failure |
| WeatherStages.RunStages | eeumel_v2.py:46-59 | the stages run in order and each runs only after the earlier ones succeed: geocoding happens exactly when extraction gave a truthy city, and geocodes that city; the fetch happens exactly when that lookup gave non-zero coordinates, and fetches at them; the outcome is then the fetch stage's reading of that response |
| WeatherV2.CityFromUtterance | eeumel_v2.py:69-75 | the first GPE entity's text; a spaCy exception propagates |
| WeatherV2.SelectCoordinates | eeumel_v2.py:65-67 | coordinates exist exactly when the status is 200 and the result list is non-empty, and then they are the first result's |
| WeatherV2.GetCoordinates | eeumel_v2.py:61-67 | a transport failure raises; otherwise the result selection above |
| WeatherV2.GetWeather | eeumel_v2.py:45-59 | spaCy runs first on the utterance; a spaCy exception ends the call after that one call; geocoding happens exactly when the first GPE entity is a non-empty city, and it geocodes that city; "no city" exactly when spaCy gives no usable city; at most three calls |
| WeatherV2.ReplyOf | eeumel_v2.py:47-59 | the agent raises exactly when some stage failed with an exception |
| WeatherV2.NoCityStopsEarly | eeumel_v2.py:46-48 | no city gives "Location not found." with no geocoding and no fetch |
| WeatherV2.NoCoordinatesStopsBeforeFetch | eeumel_v2.py:50-52 | missing or zero coordinates give "Location not found." with no fetch |
| WeatherV2.BadStatusIsReported | eeumel_v2.py:54-56 | a non-200 forecast status gives "Error retrieving weather data: <status>", distinct for every other status |
| WeatherV2.TemperatureIsReported | eeumel_v2.py:58-59 | with city, coordinates and a 200 response, the answer is the temperature sentence for that city |
| WeatherV2.RaisesExactlyOnCollaboratorFailure | eeumel_v2.py:45-59 | `get_weather` raises exactly when spaCy raises, the geocoding request fails, or the fetch fails or lacks the temperature |
| WeatherV2.EarlyExitsShareMessage | eeumel_v2.py:47-52 | the no-city and no-coordinates exits cannot be told apart by their message |
| WeatherAgent.Construct | agents/WeatherAgent.py:4-14 | both dependencies are set exactly when both were built; any failure leaves both `None` |
| WeatherAgent.FailedConstructionGatesEveryCall | agents/WeatherAgent.py:11-21 | after a failed construction, every call answers "unavailable" and calls no collaborator |
| WeatherAgent.CityFromUtterance | agents/WeatherAgent.py:49-59 | the first GPE entity's text; a spaCy exception gives `None` |
| WeatherAgent.GetCoordinates | agents/WeatherAgent.py:61-71 | coordinates exactly when a location is found; not found or an exception gives `None` |
| WeatherAgent.GetWeather | agents/WeatherAgent.py:16-21 | the gate fires exactly when a dependency is missing, and then no stage runs |
| WeatherAgent.Message | agents/WeatherAgent.py:21-47 | every message is non-empty; the no-coordinates message contains the city, the bad-status message the status code, the success sentence the city and the temperature |
| WeatherAgent.Respond | agents/WeatherAgent.py:16-47 | `get_weather` always returns a non-empty message, never an exception |
| WeatherAgent.NoCityStopsEarly | agents/WeatherAgent.py:24-27 | no city, or a spaCy failure, gives the "place not recognised" message with no geocoding and no fetch |
| WeatherAgent.NoCoordinatesNamesCity | agents/WeatherAgent.py:29-32 | missing, failed or zero coordinates give a message containing the city, with no fetch |
| WeatherAgent.BadStatusIsReported | agents/WeatherAgent.py:34-40 | a non-200 status gives a message containing that status, after one call to each service |
| WeatherAgent.TemperatureIsReported | agents/WeatherAgent.py:42-43 | a 200 response with a temperature gives "Die aktuelle Temperatur in <city> beträgt <temp>°C." |
| WeatherAgent.FetchFailureIsCaught | agents/WeatherAgent.py:34-47 | a failing fetch or a missing temperature gives the generic error message instead of an exception |
| WeatherAgent.MessageIdentifiesOutcome | agents/WeatherAgent.py:19-47 | every message except the success sentence determines the outcome, including its city or status |
| WeatherAgent.CatchesWhatV2Raises | agents/WeatherAgent.py:23-71 | with the same collaborators the two agents make the same calls and end the same way, except that where the single-file agent raises, this one answers with a message |
| CarManual.GetCarManualResponse | eeumel_v2.py:81-85 | without an index: the unavailable message and no chain run; with one: one chain run on the query and the empty history, whose answer or exception is passed on |
| Dispatcher.ParseSelection | eeumel_v2.py:110-115 | a reply parses exactly when it contains `\|`; the name has no separator, and neither part has outer whitespace |
| Dispatcher.Select | eeumel_v2.py:112-116 | the weather route exactly when the stripped name is "Weather Agent", the car-manual route exactly when it is "Car Manual Agent", otherwise no agent; a chosen agent gets the stripped query |
| Dispatcher.Classify | eeumel_v2.py:110-116 | an accepted reply splits as name + `\|` + rest with no `\|` in the name, and is routed by the stripped name with the stripped rest as query |
| Dispatcher.Forward | eeumel_v2.py:112-116 | an unknown name returns "No fitting Agent found" and invokes no agent; the weather route answers with the weather agent's reply and calls for the forwarded query; the car-manual route with `get_car_manual_response`'s reply and calls for it |
| Dispatcher.Settle | eeumel_v2.py:106-116 | an exception from the attempt that ends the loop escapes as the classifier's failure; an accepted reply is routed by its stripped name, and the result is the chosen agent's reply and calls for the stripped query |
| Dispatcher.ProcessQuery | eeumel_v2.py:105-116 | the routed reply is the first completion containing `\|`; earlier ones are discarded unrouted; no result when no completion settles; an exception from the selection chain escapes; a routed call returns the chosen agent's reply and calls for the forwarded query |
| Dispatcher.ParseInvertsFormat | eeumel_v2.py:110 | parsing `name\|query` returns the stripped name and the stripped query |
| Dispatcher.PaddingDoesNotChangeRoute | eeumel_v2.py:110-115 | whitespace around the name or the query does not change the route or the forwarded query |
| Dispatcher.UnknownNameSelectsNoAgent | eeumel_v2.py:112-116 | a stripped name equal to neither agent name selects no agent |
| Dispatcher.NameMatchIsCaseSensitive | eeumel_v2.py:112-114 | "weather agent" does not route to the weather agent |
| Dispatcher.RetryDiscardsMalformed | eeumel_v2.py:106-110 | after k malformed completions the next well-formed one is routed on attempt k+1, and later completions are never used |
| Dispatcher.ClassifierFailureEscapes | eeumel_v2.py:106-108 | an exception from the selection chain ends the call with the exception |
| Dispatcher.WeatherReplyRoutesQuery | eeumel_v2.py:110-113 | "Weather Agent\|q" routes exactly q to the weather agent when q has no outer whitespace |
| Dispatcher.RetryThenWeather | eeumel_v2.py:105-113 | a malformed reply followed by "Weather Agent\|q" takes two attempts and gives the weather agent's answer for q |
| KnowledgeTurn.Response | app/routes.py:21-35 | an answered request returns the chain's answer unchanged; every other outcome returns a non-empty fixed message |
| KnowledgeTurn.FixedResponsesDiffer | app/routes.py:21-35 | the four fixed messages are pairwise different, so the refusal or failure can be read off the response |
| KnowledgeTurn.Query | app/routes.py:15-35 | empty question first, then model, then index; the chain runs once on the prior history exactly when all pass; only success appends exactly (question, answer) and returns that answer; a failure leaves the history unchanged |
| KnowledgeTurn.Serve | app/routes.py:9-35 | over any sequence of requests, each sees the history of earlier answered requests, and the final history is the (question, answer) pairs of the answered requests in order |
| KnowledgeTurn.TwoAnsweredTurns | app/routes.py:31-32 | two answered requests from an empty history leave two entries in order; the second chain run sees the first entry |
| KnowledgeTurn.AnsweredPairsEntries | app/routes.py:9-32 | the history built from a sequence of requests holds exactly the (question, answer) pairs of the answered ones: every entry is such a pair and every such pair is an entry |
| KnowledgeTurn.AnsweredPairsCount | app/routes.py:32 | the history gains exactly as many entries as there were answered requests: no deduplication |

## Left out

- HTTP plumbing is not modelled: Flask routes, the HTML page, JSON wrapping
  and port setup (eeumel_v2.py:122-183, app/__init__.py, main.py). This
  includes the single-file handler's "Query is missing" 400 reply and reading
  `query` from the JSON body.
- The single-file weather agent's constructor (eeumel_v2.py:40-43) loads
  spaCy at import time with no handler. Its pipeline is a given collaborator
  here, so a failed load is outside the model.
- Start-up in the package layout (app/services/embeddings.py,
  app/services/chat_model.py) is reduced to one present/absent fact per
  object: `KnowledgeTurn.Services.modelLoaded` and `indexLoaded`.
- Start-up failures in eeumel_v2.py stop the module from loading, so no
  request is ever served. A missing `OPENAI_API_KEY` raises `ValueError`
  (lines 15-16). `OpenAIEmbeddings()` (line 21), `FAISS.load_local` (line 27)
  and `ChatOpenAI` (line 33) have no handler. The model assumes start-up
  succeeded. The one exception is a missing index path (lines 26-30), which
  leaves the index absent: `CarManual.Knowledge.indexLoaded` is false.
- Logging and `print` calls have no effect on behaviour and are left out.
- The prompt text (eeumel_v2.py:93-103) is left out. What the model answers is
  the input sequence of completions.
- URLs and API keys are left out. The forecast request is a function of the
  coordinates.
- Malformed geocoding JSON is left out: a truthy non-list body, a non-JSON
  body, or a result without `lat`/`lon` raises; a falsy body behaves like an
  empty list.
- Floats are opaque. Coordinates are reals compared only with zero, and a
  temperature is the text Python prints for it.
- Concurrent requests to the process-wide `chat_history` are not modelled.
  The model serves requests one at a time.
- Dispatcher.ProcessQuery: the retry loop does not terminate in the source when
  the model never produces `|`. The model reads a finite sequence of
  completions and returns no result when none of them settles.
- CarManual.GetCarManualResponse: the unavailable message is stated for "no
  index", not as "exactly when". With an index, the chain itself could answer
  with the same text.
- WeatherAgent.Construct and WeatherAgent.Respond assume that `os`, `spacy`,
  `requests` and `Nominatim` are imported and that `logger` is defined.
  agents/WeatherAgent.py does neither. As written, the `os.getenv` call at
  line 6 raises `NameError`, the handler at line 12 raises again on `logger`,
  so construction fails. `get_weather` raises at line 17 before the gate.
  The model describes the agent with those names bound.
- WeatherStages.Recognised: an entity text that is empty cannot come from
  spaCy in practice. It is still treated as "no city", as `if not city` does.

=== FILE: car_manual.dfy ===
/** The knowledge responder of the single-file application (eeumel_v2.py,
    `get_car_manual_response`): one run of the retrieval chain over the
    car-manual index, when the index was loaded at start-up. */
module CarManual {
  import opened Collaborators

  const UnavailableMessage: string := "Car manual database is unavailable."

  /** The module-level `chat_history` of the single-file application: it is
      created empty and nothing ever appends to it. */
  const ChatHistory: History := []

  /** Whether the FAISS index was found at start-up, and the chain built on
      it (a run of the chain on a question and a history). */
  datatype Knowledge = Knowledge(indexLoaded: bool, chain: (string, History) -> ChainOutcome)

  /** What a call hands back, and the collaborator calls it made. */
  datatype Answered = Answered(reply: Reply, calls: seq<Call>)

  /** `get_car_manual_response`: without an index, the fixed message and no
      chain call; with one, the chain's answer for the query and the (always
      empty) history, an exception from the chain propagating. */
  function GetCarManualResponse(k: Knowledge, query: string): (r: Answered)
    ensures !k.indexLoaded <==> r.calls == []
    ensures !k.indexLoaded ==> r.reply == Returned(UnavailableMessage)
    ensures k.indexLoaded ==> r.calls == [Chain(query, [])]
    ensures k.indexLoaded ==> (r.reply.Raised? <==> k.chain(query, []).ChainRaised?)
    ensures k.indexLoaded && r.reply.Returned? ==> r.reply.text == k.chain(query, []).text
  {
    if k.indexLoaded then
      match k.chain(query, ChatHistory)
      case Answer(text) => Answered(Returned(text), [Chain(query, ChatHistory)])
      case ChainRaised => Answered(Raised, [Chain(query, ChatHistory)])
    else
      Answered(Returned(UnavailableMessage), [])
  }
}

=== FILE: collaborators.dfy ===
/** What the agents see of their foreign collaborators (spaCy, the geocoding
    services, the weather service, the LangChain chains): the shapes of their
    results, and the record of which of them a request called. */
module Collaborators {
  import opened Options
  import opened Text

  /** A named entity of a spaCy document: its text and its label (`label_`). */
  datatype Entity = Entity(text: string, kind: string)

  /** spaCy's label for a geo-political entity, the only kind taken as a city. */
  const PlaceLabel: string := "GPE"

  predicate IsPlace(e: Entity) {
    e.kind == PlaceLabel
  }

  /** Running the spaCy pipeline on a text: its entities in document order,
      or an exception. */
  datatype Parse = Parsed(ents: seq<Entity>) | ParseRaised

  /** A latitude/longitude pair; the floats are modelled as reals because the
      weather agents only ever test them against zero. */
  datatype Coordinates = Coordinates(latitude: real, longitude: real)

  /** The forecast request: an exception from `requests.get`, or a response
      with its status code and the `current_weather.temperature` field as
      Python would print it (`None` when the field is missing, which makes
      the lookup raise). */
  datatype Fetched = FetchRaised | Fetched(status: int, temperature: Option<string>)

  /** One run of a conversational retrieval chain: its answer, or an
      exception. */
  datatype ChainOutcome = Answer(text: string) | ChainRaised

  /** Conversation history: (question, answer) pairs, oldest first. */
  type History = seq<(string, string)>

  /** One call from an agent into a collaborator. */
  datatype Call =
    | Extract(utterance: string)
    | Geocode(place: string)
    | Fetch(at: Coordinates)
    | Chain(question: string, history: History)

  /** What a Python call that does not catch everything yields: a returned
      string, or an exception escaping to the caller. */
  datatype Reply = Returned(text: string) | Raised

  /** The text of the first entity labelled as a place, in document order;
      `None` when there is none. */
  function FirstPlace(ents: seq<Entity>): (r: Option<string>)
    ensures r.None? <==> forall i :: 0 <= i < |ents| ==> !IsPlace(ents[i])
    ensures r.Some? ==> exists i :: 0 <= i < |ents| && IsPlace(ents[i]) && ents[i].text == r.value
                                    && forall j :: 0 <= j < i ==> !IsPlace(ents[j])
  {
    match FirstWhere(ents, IsPlace)
    case None => None
    case Some(i) => Some(ents[i].text)
  }

  /** Entities before the first place are skipped, and entities after it do
      not matter. */
  lemma FirstPlaceAfter(others: seq<Entity>, place: Entity, rest: seq<Entity>)
    requires forall j :: 0 <= j < |others| ==> !IsPlace(others[j])
    requires IsPlace(place)
    ensures FirstPlace(others + [place] + rest) == Some(place.text)
  {
    FirstWhereAfter(others, place, rest, IsPlace);
    assert (others + [place] + rest)[|others|] == place;
  }
}

=== FILE: dispatcher.dfy ===
/** The multi-agent dispatcher of the single-file application (eeumel_v2.py,
    `MultiAgentSystem.process_query`): ask the language model which agent
    should answer until its reply contains `|`, split the reply there, and
    hand the trimmed rest to the agent the trimmed name selects. */
module Dispatcher {
  import opened Options
  import opened Text
  import opened Collaborators
  import WeatherV2
  import CarManual

  /** One run of the selection chain: the model's text, or an exception
      (authentication, network, quota). */
  datatype Completion = Completed(text: string) | CompletionRaised

  const Separator: char := '|'
  const WeatherAgentName: string := "Weather Agent"
  const CarManualAgentName: string := "Car Manual Agent"
  const NoAgentMessage: string := "No fitting Agent found"

  /** A selection reply the loop accepts. */
  predicate WellFormed(reply: string) {
    Separator in reply
  }

  /** A completion that ends the retry loop: an accepted reply, or an
      exception, which leaves the loop and the dispatcher. */
  predicate Settles(c: Completion) {
    c.CompletionRaised? || WellFormed(c.text)
  }

  /** Which agent a selection reply picks, with the query it forwards. */
  datatype Route = ToWeather(query: string) | ToCarManual(query: string) | NoFittingAgent

  /** `reply.split("|", 1)` with both halves stripped: the agent name and
      the forwarded query. */
  function ParseSelection(reply: string): (d: Option<(string, string)>)
    ensures d.None? <==> !WellFormed(reply)
    ensures d.Some? ==> Separator !in d.value.0
    ensures d.Some? ==> NoOuterSpace(d.value.0) && NoOuterSpace(d.value.1)
  {
    match SplitAtFirst(reply, Separator)
    case None => None
    case Some((name, rest)) => Some((Strip(name), Strip(rest)))
  }

  /** The agent a stripped name selects: an exact, case-sensitive match
      against the two agent names. */
  function Select(name: string, query: string): (r: Route)
    ensures r.ToWeather? <==> name == WeatherAgentName
    ensures r.ToCarManual? <==> name == CarManualAgentName
    ensures !r.NoFittingAgent? ==> r.query == query
  {
    if name == WeatherAgentName then ToWeather(query)
    else if name == CarManualAgentName then ToCarManual(query)
    else NoFittingAgent
  }

  /** The routing of an accepted reply. */
  function Classify(reply: string): (r: Route)
    requires WellFormed(reply)
    ensures exists name, rest :: && Separator !in name && reply == name + [Separator] + rest
                                 && r == Select(Strip(name), Strip(rest))
  {
    var (name, query) := ParseSelection(reply).value;
    Select(name, query)
  }

  /** How one call of `process_query` ended: the selection chain raised on
      attempt `attempts`, or the reply of that attempt was routed, with the
      chosen agent's reply and the collaborator calls it made. */
  datatype Dispatch =
    | ClassifierRaised(attempts: nat)
    | Routed(attempts: nat, route: Route, reply: Reply, calls: seq<Call>)

  /** The agents the dispatcher can hand a query to. */
  datatype Agents = Agents(weather: WeatherV2.Services, knowledge: CarManual.Knowledge)

  /** Invokes the routed agent: the weather agent or the car-manual
      responder on the forwarded query, or no agent at all. */
  function Forward(agents: Agents, route: Route): (h: (Reply, seq<Call>))
    ensures route.NoFittingAgent? ==> h == (Returned(NoAgentMessage), [])
    ensures route.ToCarManual? ==> forall i :: 0 <= i < |h.1| ==> h.1[i] == Chain(route.query, [])
    ensures route.ToWeather? ==> 0 < |h.1| && h.1[0] == Extract(route.query)
    // a routed query gets the chosen agent's own reply, with the calls that agent made
    ensures route.ToWeather? ==>
              var run := WeatherV2.GetWeather(agents.weather, route.query);
              h == (WeatherV2.ReplyOf(run.outcome), run.calls)
    ensures route.ToCarManual? ==>
              var answered := CarManual.GetCarManualResponse(agents.knowledge, route.query);
              h == (answered.reply, answered.calls)
  {
    match route
    case ToWeather(query) =>
      var run := WeatherV2.GetWeather(agents.weather, query);
      (WeatherV2.ReplyOf(run.outcome), run.calls)
    case ToCarManual(query) =>
      var answered := CarManual.GetCarManualResponse(agents.knowledge, query);
      (answered.reply, answered.calls)
    case NoFittingAgent =>
      (Returned(NoAgentMessage), [])
  }

  /** How the attempt that ended the loop ends the call: an exception
      escapes, and an accepted reply is routed and forwarded. */
  function Settle(agents: Agents, attempts: nat, c: Completion): (d: Dispatch)
    requires Settles(c)
    ensures d.attempts == attempts
    ensures d.ClassifierRaised? <==> c.CompletionRaised?
    ensures d.Routed? ==> d.route == Classify(c.text)
    ensures d.Routed? && d.route.NoFittingAgent? ==> d.reply == Returned(NoAgentMessage) && d.calls == []
    ensures d.Routed? && d.route.ToCarManual? ==>
              forall i :: 0 <= i < |d.calls| ==> d.calls[i] == Chain(d.route.query, [])
    ensures d.Routed? && d.route.ToWeather? ==> 0 < |d.calls| && d.calls[0] == Extract(d.route.query)
    ensures d.Routed? && d.route.ToWeather? ==>
              var run := WeatherV2.GetWeather(agents.weather, d.route.query);
              d.reply == WeatherV2.ReplyOf(run.outcome) && d.calls == run.calls
    ensures d.Routed? && d.route.ToCarManual? ==>
              var answered := CarManual.GetCarManualResponse(agents.knowledge, d.route.query);
              d.reply == answered.reply && d.calls == answered.calls
  {
    match c
    case CompletionRaised => ClassifierRaised(attempts)
    case Completed(text) =>
      var route := Classify(text);
      var (reply, calls) := Forward(agents, route);
      Routed(attempts, route, reply, calls)
  }

  /** `process_query`, given the successive completions the selection chain
      would produce for the query. `None` means no completion in the
      sequence ends the loop, which in the source keeps asking forever. */
  function ProcessQuery(agents: Agents, completions: seq<Completion>): (r: Option<Dispatch>)
    ensures r.None? <==> forall i :: 0 <= i < |completions| ==> !Settles(completions[i])
    ensures r.Some? ==> 1 <= r.value.attempts <= |completions|
                        && Settles(completions[r.value.attempts - 1])
                        && forall j :: 0 <= j < r.value.attempts - 1 ==> !Settles(completions[j])
    ensures r.Some? && r.value.ClassifierRaised? ==> completions[r.value.attempts - 1].CompletionRaised?
    ensures r.Some? && r.value.Routed? ==>
              && completions[r.value.attempts - 1].Completed?
              && r.value.route == Classify(completions[r.value.attempts - 1].text)
    ensures r.Some? && r.value.Routed? && r.value.route.NoFittingAgent? ==>
              r.value.reply == Returned(NoAgentMessage) && r.value.calls == []
    ensures r.Some? && r.value.Routed? && r.value.route.ToCarManual? ==>
              forall i :: 0 <= i < |r.value.calls| ==> r.value.calls[i] == Chain(r.value.route.query, [])
    ensures r.Some? && r.value.Routed? && r.value.route.ToWeather? ==>
              0 < |r.value.calls| && r.value.calls[0] == Extract(r.value.route.query)
    // the call returns what the selected agent returns
    ensures r.Some? && r.value.Routed? && r.value.route.ToWeather? ==>
              var run := WeatherV2.GetWeather(agents.weather, r.value.route.query);
              r.value.reply == WeatherV2.ReplyOf(run.outcome) && r.value.calls == run.calls
    ensures r.Some? && r.value.Routed? && r.value.route.ToCarManual? ==>
              var answered := CarManual.GetCarManualResponse(agents.knowledge, r.value.route.query);
              r.value.reply == answered.reply && r.value.calls == answered.calls
  {
    match FirstWhere(completions, Settles)
    case None => None
    case Some(k) => Some(Settle(agents, k + 1, completions[k]))
  }

  /** Parsing inverts the expected reply format `<name>|<query>`: the name
      and the query come back stripped. */
  lemma ParseInvertsFormat(name: string, query: string)
    requires Separator !in name
    ensures ParseSelection(name + [Separator] + query) == Some((Strip(name), Strip(query)))
  {
    SplitJoin(name, Separator, query);
  }

  /** Whitespace around the name or around the query does not change the
      route; in particular `"Weather Agent|" + q` routes `q` itself to the
      weather agent when `q` has no outer whitespace. */
  lemma PaddingDoesNotChangeRoute(p1: string, name: string, p2: string,
                                  p3: string, query: string, p4: string)
    requires AllSpace(p1) && AllSpace(p2) && AllSpace(p3) && AllSpace(p4)
    requires NoOuterSpace(name) && NoOuterSpace(query)
    requires Separator !in name
    ensures WellFormed(p1 + name + p2 + [Separator] + p3 + query + p4)
    ensures Classify(p1 + name + p2 + [Separator] + p3 + query + p4) == Select(name, query)
  {
    var head := p1 + name + p2;
    var tail := p3 + query + p4;
    assert !IsSpace(Separator);
    assert Separator !in head by {
      forall i | 0 <= i < |head| ensures head[i] != Separator {
        if i < |p1| { assert head[i] == p1[i]; }
        else if i < |p1| + |name| { assert head[i] == name[i - |p1|]; }
        else { assert head[i] == p2[i - |p1| - |name|]; }
      }
    }
    assert p1 + name + p2 + [Separator] + p3 + query + p4 == head + [Separator] + tail;
    ParseInvertsFormat(head, tail);
    StripIgnoresPadding(p1, name, p2);
    StripIgnoresPadding(p3, query, p4);
    StripKeepsUnpadded(name);
    StripKeepsUnpadded(query);
  }

  /** A reply whose stripped name is neither agent name selects no agent,
      whatever the query. */
  lemma UnknownNameSelectsNoAgent(name: string, query: string)
    requires Separator !in name
    requires Strip(name) != WeatherAgentName && Strip(name) != CarManualAgentName
    ensures WellFormed(name + [Separator] + query)
    ensures Classify(name + [Separator] + query) == NoFittingAgent
  {
    ParseInvertsFormat(name, query);
  }

  lemma LowerCaseNameStrips()
    ensures Strip("weather agent") == "weather agent"
  {
    StripKeepsUnpadded("weather agent");
  }

  lemma LowerCaseNameHasNoSeparator()
    ensures Separator !in "weather agent"
  {
  }

  lemma LowerCaseNameDiffers()
    ensures "weather agent" != WeatherAgentName && "weather agent" != CarManualAgentName
  {
    assert "weather agent"[0] != WeatherAgentName[0];
  }

  /** Agent names are matched case-sensitively: "weather agent" selects no
      agent. */
  lemma NameMatchIsCaseSensitive(query: string)
    ensures WellFormed("weather agent" + [Separator] + query)
    ensures Classify("weather agent" + [Separator] + query) == NoFittingAgent
  {
    LowerCaseNameStrips();
    LowerCaseNameHasNoSeparator();
    LowerCaseNameDiffers();
    UnknownNameSelectsNoAgent("weather agent", query);
  }

  /** Completions without `|` are discarded unrouted: the first accepted
      reply is the one that is routed, after one attempt per discarded
      completion, and later completions are never asked for. */
  lemma RetryDiscardsMalformed(agents: Agents, malformed: seq<Completion>, reply: string,
                               later: seq<Completion>)
    requires forall j :: 0 <= j < |malformed| ==> malformed[j].Completed? && !WellFormed(malformed[j].text)
    requires WellFormed(reply)
    ensures var r := ProcessQuery(agents, malformed + [Completed(reply)] + later);
            && r.Some? && r.value.Routed?
            && r.value.attempts == |malformed| + 1
            && r.value.route == Classify(reply)
  {
    assert forall j :: 0 <= j < |malformed| ==> !Settles(malformed[j]);
    FirstWhereAfter(malformed, Completed(reply), later, Settles);
  }

  /** An exception from the selection chain ends the call after the
      malformed completions before it. */
  lemma ClassifierFailureEscapes(agents: Agents, malformed: seq<Completion>, later: seq<Completion>)
    requires forall j :: 0 <= j < |malformed| ==> malformed[j].Completed? && !WellFormed(malformed[j].text)
    ensures ProcessQuery(agents, malformed + [CompletionRaised] + later)
            == Some(ClassifierRaised(|malformed| + 1))
  {
    assert forall j :: 0 <= j < |malformed| ==> !Settles(malformed[j]);
    FirstWhereAfter(malformed, CompletionRaised, later, Settles);
  }

  /** Neither agent name has outer whitespace or a separator. */
  lemma AgentNamesAreClean()
    ensures NoOuterSpace(WeatherAgentName) && Separator !in WeatherAgentName
    ensures NoOuterSpace(CarManualAgentName) && Separator !in CarManualAgentName
  {
  }

  /** `Weather Agent|<query>` routes the query itself to the weather agent
      when the query has no outer whitespace. */
  lemma WeatherReplyRoutesQuery(query: string)
    requires NoOuterSpace(query)
    ensures WellFormed(WeatherAgentName + [Separator] + query)
    ensures Classify(WeatherAgentName + [Separator] + query) == ToWeather(query)
  {
    AgentNamesAreClean();
    ParseInvertsFormat(WeatherAgentName, query);
    StripKeepsUnpadded(WeatherAgentName);
    StripKeepsUnpadded(query);
  }

  /** A malformed first reply followed by `Weather Agent|<query>`, for a
      query without outer whitespace: two attempts, and the weather agent
      receives exactly the query. */
  lemma RetryThenWeather(agents: Agents, first: string, query: string)
    requires !WellFormed(first)
    requires NoOuterSpace(query)
    ensures var r := ProcessQuery(agents, [Completed(first), Completed(WeatherAgentName + [Separator] + query)]);
            var run := WeatherV2.GetWeather(agents.weather, query);
            r == Some(Routed(2, ToWeather(query), WeatherV2.ReplyOf(run.outcome), run.calls))
  {
    var reply := WeatherAgentName + [Separator] + query;
    var malformed := [Completed(first)];
    var completions := [Completed(first), Completed(reply)];
    assert completions == malformed + [Completed(reply)] + [];
    assert WellFormed(reply);
    RetryDiscardsMalformed(agents, malformed, reply, []);
    WeatherReplyRoutesQuery(query);
    var r := ProcessQuery(agents, completions);
    assert r.value.route == ToWeather(query);
    var run := WeatherV2.GetWeather(agents.weather, query);
    assert r.value.reply == WeatherV2.ReplyOf(run.outcome) && r.value.calls == run.calls;
  }
}

=== FILE: knowledge_turn.dfy ===
/** The question-answering endpoint of the package layout (app/routes.py,
    `query`): three availability checks in a fixed order, one run of the
    conversational retrieval chain on the question and the history so far,
    and an append to the process-wide history only when the run succeeds. */
module KnowledgeTurn {
  import opened Collaborators

  const EmptyQuestionMessage: string := "Bitte stellen Sie eine Frage."
  const ModelUnavailableMessage: string := "Das Sprachmodell ist momentan nicht verfügbar."
  const IndexUnavailableMessage: string := "Die Wissensdatenbank ist momentan nicht verfügbar."
  const FailureMessage: string := "Bei der Verarbeitung Ihrer Anfrage ist ein Fehler aufgetreten."

  /** What start-up produced: whether the chat model and the FAISS index
      could be built, and a run of the chain built from them. */
  datatype Services = Services(modelLoaded: bool, indexLoaded: bool,
                               chain: (string, History) -> ChainOutcome)

  /** How one request ended. */
  datatype TurnOutcome =
    | EmptyQuestion
    | ModelUnavailable
    | IndexUnavailable
    | Answered(answer: string)
    | Failed

  /** A request's outcome, the history after it, and the chain runs it made. */
  datatype Turn = Turn(outcome: TurnOutcome, history: History, calls: seq<Call>)

  /** The response text sent back for an outcome: the chain's answer as
      it is, or one of the fixed messages, none of them empty. */
  function Response(o: TurnOutcome): (m: string)
    ensures o.Answered? ==> m == o.answer
    ensures !o.Answered? ==> |m| > 0
  {
    match o
    case EmptyQuestion => EmptyQuestionMessage
    case ModelUnavailable => ModelUnavailableMessage
    case IndexUnavailable => IndexUnavailableMessage
    case Answered(answer) => answer
    case Failed => FailureMessage
  }

  /** One request with question `question` against the history `history`. */
  function Query(svc: Services, history: History, question: string): (t: Turn)
    // the checks, in order: question, then model, then index
    ensures question == "" ==> t.outcome == EmptyQuestion
    ensures question != "" && !svc.modelLoaded ==> t.outcome == ModelUnavailable
    ensures question != "" && svc.modelLoaded && !svc.indexLoaded ==> t.outcome == IndexUnavailable
    // the chain runs once, on the history as it was before this request, exactly when every check passes
    ensures question != "" && svc.modelLoaded && svc.indexLoaded <==> t.calls == [Chain(question, history)]
    ensures t.calls == [] || t.calls == [Chain(question, history)]
    // success appends exactly one pair; every other outcome leaves the history alone
    ensures t.outcome.Answered? <==> t.calls != [] && svc.chain(question, history).Answer?
    ensures t.outcome.Answered? ==> t.outcome.answer == svc.chain(question, history).text
    ensures t.outcome.Answered? ==> t.history == history + [(question, t.outcome.answer)]
    ensures !t.outcome.Answered? ==> t.history == history
    ensures t.outcome.Failed? <==> t.calls != [] && svc.chain(question, history).ChainRaised?
  {
    if question == "" then Turn(EmptyQuestion, history, [])
    else if !svc.modelLoaded then Turn(ModelUnavailable, history, [])
    else if !svc.indexLoaded then Turn(IndexUnavailable, history, [])
    else
      match svc.chain(question, history)
      case Answer(answer) => Turn(Answered(answer), history + [(question, answer)], [Chain(question, history)])
      case ChainRaised => Turn(Failed, history, [Chain(question, history)])
  }

  /** The (question, answer) pairs of the answered requests, in request
      order, duplicates kept. */
  function AnsweredPairs(questions: seq<string>, outcomes: seq<TurnOutcome>): (h: History)
    requires |questions| == |outcomes|
  {
    if |questions| == 0 then []
    else
      var n := |questions| - 1;
      AnsweredPairs(questions[..n], outcomes[..n])
        + (if outcomes[n].Answered? then [(questions[n], outcomes[n].answer)] else [])
  }

  /** The fixed messages are pairwise different, so the response tells the
      refusals and the failure apart. */
  lemma FixedResponsesDiffer(o1: TurnOutcome, o2: TurnOutcome)
    requires !o1.Answered? && !o2.Answered?
    requires Response(o1) == Response(o2)
    ensures o1 == o2
  {
  }

  /** Extending the requests by one adds that request's pair, if any. */
  lemma AnsweredPairsStep(questions: seq<string>, outcomes: seq<TurnOutcome>, i: nat, o: TurnOutcome)
    requires i < |questions| && |outcomes| == i
    ensures AnsweredPairs(questions[..i + 1], outcomes + [o])
            == AnsweredPairs(questions[..i], outcomes)
               + (if o.Answered? then [(questions[i], o.answer)] else [])
  {
    assert questions[..i + 1][..i] == questions[..i];
    assert (outcomes + [o])[..i] == outcomes;
  }

  /** Each of the first `|outcomes|` requests was answered by `serve`
      against the starting history followed by the pairs of the answered
      requests before it. */
  predicate ServedInOrder(serve: (History, string) -> TurnOutcome, start: History,
                          questions: seq<string>, outcomes: seq<TurnOutcome>)
    requires |outcomes| <= |questions|
  {
    forall j {:trigger outcomes[j]} :: 0 <= j < |outcomes| ==>
      outcomes[j] == serve(start + AnsweredPairs(questions[..j], outcomes[..j]), questions[j])
  }

  lemma ServedInOrderStep(serve: (History, string) -> TurnOutcome, start: History,
                          questions: seq<string>, outcomes: seq<TurnOutcome>, history: History, o: TurnOutcome)
    requires |outcomes| < |questions| && ServedInOrder(serve, start, questions, outcomes)
    requires history == start + AnsweredPairs(questions[..|outcomes|], outcomes)
    requires o == serve(history, questions[|outcomes|])
    ensures ServedInOrder(serve, start, questions, outcomes + [o])
  {
    var outcomes' := outcomes + [o];
    assert outcomes'[..|outcomes|] == outcomes;
    forall j | 0 <= j < |outcomes|
      ensures outcomes'[j] == outcomes[j] && outcomes'[..j] == outcomes[..j]
    {
    }
  }

  lemma ServedByQuery(svc: Services, serve: (History, string) -> TurnOutcome, start: History,
                      questions: seq<string>, outcomes: seq<TurnOutcome>)
    requires |outcomes| == |questions|
    requires forall h, q :: serve(h, q) == Query(svc, h, q).outcome
    requires ServedInOrder(serve, start, questions, outcomes)
    ensures forall i :: 0 <= i < |questions| ==>
              outcomes[i] == Query(svc, start + AnsweredPairs(questions[..i], outcomes[..i]), questions[i]).outcome
  {
  }

  /** One iteration of `Serve` keeps its invariants, for any way `serve` of
      answering a request that appends exactly the answered pair. */
  lemma ServeStep(serve: (History, string) -> TurnOutcome, start: History, questions: seq<string>,
                  outcomes: seq<TurnOutcome>, history: History, o: TurnOutcome, history': History)
    requires |outcomes| < |questions|
    requires history == start + AnsweredPairs(questions[..|outcomes|], outcomes)
    requires ServedInOrder(serve, start, questions, outcomes)
    requires o == serve(history, questions[|outcomes|])
    requires history' == history + (if o.Answered? then [(questions[|outcomes|], o.answer)] else [])
    ensures history' == start + AnsweredPairs(questions[..|outcomes| + 1], outcomes + [o])
    ensures ServedInOrder(serve, start, questions, outcomes + [o])
  {
    AnsweredPairsStep(questions, outcomes, |outcomes|, o);
    ServedInOrderStep(serve, start, questions, outcomes, history, o);
  }

  /** Serves the requests one after the other against the shared history.
      Each request sees the starting history followed by the pairs of the
      answered requests before it, and afterwards the history is the starting
      history followed by the pairs of all answered requests, in order. */
  method Serve(svc: Services, start: History, questions: seq<string>)
    returns (outcomes: seq<TurnOutcome>, history: History)
    ensures |outcomes| == |questions|
    ensures history == start + AnsweredPairs(questions, outcomes)
    ensures forall i :: 0 <= i < |questions| ==>
              outcomes[i] == Query(svc, start + AnsweredPairs(questions[..i], outcomes[..i]), questions[i]).outcome
  {
    var serve := (h, q) => Query(svc, h, q).outcome;
    outcomes := [];
    history := start;
    for i := 0 to |questions|
      invariant |outcomes| == i
      invariant history == start + AnsweredPairs(questions[..i], outcomes)
      invariant ServedInOrder(serve, start, questions, outcomes)
    {
      var t := Query(svc, history, questions[i]);
      assert t.outcome == serve(history, questions[i]);
      ServeStep(serve, start, questions, outcomes, history, t.outcome, t.history);
      outcomes := outcomes + [t.outcome];
      history := t.history;
    }
    assert questions[..|questions|] == questions;
    ServedByQuery(svc, serve, start, questions, outcomes);
  }

  /** Two answered requests in a row, starting from an empty history: two
      entries, in request order, each with its literal question, even when
      the questions are the same. */
  lemma TwoAnsweredTurns(svc: Services, q1: string, q2: string, a1: string, a2: string)
    requires q1 != "" && q2 != "" && svc.modelLoaded && svc.indexLoaded
    requires svc.chain(q1, []) == Answer(a1)
    requires svc.chain(q2, [(q1, a1)]) == Answer(a2)
    ensures var t1 := Query(svc, [], q1);
            var t2 := Query(svc, t1.history, q2);
            t2.history == [(q1, a1), (q2, a2)] && t2.calls == [Chain(q2, [(q1, a1)])]
  {
    var empty: History := [];
    assert empty + [(q1, a1)] == [(q1, a1)];
    assert [(q1, a1)] + [(q2, a2)] == [(q1, a1), (q2, a2)];
  }

  /** The history holds the pairs of the answered requests and nothing
      else: every entry is some answered request's question with its
      answer, and every answered request's pair is an entry. */
  lemma {:induction false} AnsweredPairsEntries(questions: seq<string>, outcomes: seq<TurnOutcome>)
    requires |questions| == |outcomes|
    ensures forall k :: 0 <= k < |AnsweredPairs(questions, outcomes)| ==>
              exists j :: && 0 <= j < |outcomes| && outcomes[j].Answered?
                          && AnsweredPairs(questions, outcomes)[k] == (questions[j], outcomes[j].answer)
    ensures forall j :: 0 <= j < |outcomes| && outcomes[j].Answered? ==>
              (questions[j], outcomes[j].answer) in AnsweredPairs(questions, outcomes)
  {
    if |questions| > 0 {
      var n := |questions| - 1;
      var qs, os := questions[..n], outcomes[..n];
      AnsweredPairsEntries(qs, os);
      var before := AnsweredPairs(qs, os);
      var last: History := if outcomes[n].Answered? then [(questions[n], outcomes[n].answer)] else [];
      var h := before + last;
      assert h == AnsweredPairs(questions, outcomes);
      forall k | 0 <= k < |h|
        ensures exists j :: && 0 <= j < |outcomes| && outcomes[j].Answered?
                            && AnsweredPairs(questions, outcomes)[k] == (questions[j], outcomes[j].answer)
      {
        if k < |before| {
          var p := before[k];
          var j :| 0 <= j < |os| && os[j].Answered? && p == (qs[j], os[j].answer);
          assert h[k] == (questions[j], outcomes[j].answer) && outcomes[j] == os[j];
        } else {
          assert h[k] == (questions[n], outcomes[n].answer);
        }
      }
      forall j | 0 <= j < |outcomes| && outcomes[j].Answered?
        ensures (questions[j], outcomes[j].answer) in AnsweredPairs(questions, outcomes)
      {
        if j < n {
          assert os[j] == outcomes[j] && qs[j] == questions[j];
        } else {
          assert h[|before|] == (questions[n], outcomes[n].answer);
        }
      }
    } else {
      assert AnsweredPairs(questions, outcomes) == [];
    }
  }

  /** Nothing is merged or dropped: there are as many pairs as answered
      requests. */
  lemma {:induction false} AnsweredPairsCount(questions: seq<string>, outcomes: seq<TurnOutcome>)
    requires |questions| == |outcomes|
    ensures |AnsweredPairs(questions, outcomes)| == |set i | 0 <= i < |outcomes| && outcomes[i].Answered?|
  {
    if |questions| > 0 {
      var n := |questions| - 1;
      AnsweredPairsCount(questions[..n], outcomes[..n]);
      var before := set i | 0 <= i < n && outcomes[..n][i].Answered?;
      var all := set i | 0 <= i < |outcomes| && outcomes[i].Answered?;
      if outcomes[n].Answered? {
        assert all == before + {n};
        assert n !in before;
        assert |before + {n}| == |before| + 1;
      } else {
        assert all == before;
      }
    }
  }
}

=== FILE: numerals.dfy ===
/** Python's `str()` of an integer, as the status code is rendered into the
    weather responders' error messages. */
module Numerals {

  predicate IsDigit(c: char) {
    '0' <= c <= '9'
  }

  predicate AllDigits(s: string) {
    forall i :: 0 <= i < |s| ==> IsDigit(s[i])
  }

  function DigitChar(d: nat): (c: char)
    requires d < 10
    ensures IsDigit(c)
  {
    (48 + d) as char
  }

  function DigitValue(c: char): (d: nat)
    requires IsDigit(c)
    ensures d < 10 && DigitChar(d) == c
  {
    (c as int) - 48
  }

  /** The decimal digits of `n`, most significant first, without leading
      zeros. */
  function NatDigits(n: nat): (s: string)
    ensures |s| >= 1 && AllDigits(s)
    ensures |s| > 1 ==> s[0] != '0'
  {
    if n < 10 then [DigitChar(n)] else NatDigits(n / 10) + [DigitChar(n % 10)]
  }

  /** The number a string of digits denotes. */
  function DigitsValue(s: string): nat
    requires AllDigits(s)
  {
    if |s| == 0 then 0 else DigitsValue(s[..|s| - 1]) * 10 + DigitValue(s[|s| - 1])
  }

  /** `str(n)` for a Python `int`: a minus sign before the digits of a
      negative number. */
  function Decimal(n: int): (s: string)
    ensures |s| >= 1
    ensures n < 0 <==> s[0] == '-'
  {
    if n < 0 then "-" + NatDigits(-n) else NatDigits(n)
  }

  /** Reading the digits back gives the number. */
  lemma {:induction false} DigitsRoundTrip(n: nat)
    ensures DigitsValue(NatDigits(n)) == n
  {
    if n >= 10 {
      var s := NatDigits(n);
      assert s[..|s| - 1] == NatDigits(n / 10);
      DigitsRoundTrip(n / 10);
    }
  }

  /** Distinct naturals have distinct digit strings. */
  lemma NatDigitsInjective(a: nat, b: nat)
    requires NatDigits(a) == NatDigits(b)
    ensures a == b
  {
    DigitsRoundTrip(a);
    DigitsRoundTrip(b);
  }

  /** Distinct integers render differently, so a rendered status can be
      recovered from the text. */
  lemma DecimalInjective(a: int, b: int)
    requires Decimal(a) == Decimal(b)
    ensures a == b
  {
    if a < 0 {
      var s := Decimal(a);
      assert s[1..] == NatDigits(-a);
      assert s[1..] == NatDigits(-b);
      NatDigitsInjective(-a, -b);
    } else {
      NatDigitsInjective(a, b);
    }
  }
}

=== FILE: options.dfy ===
/** The absent-or-present value that stands in for Python's `None`. */
module Options {

  datatype Option<+T> = None | Some(value: T)
}

=== FILE: text.dfy ===
/** String operations the dispatcher relies on: Python's `str.strip()`,
    `str.split(sep, 1)` and the search for the first element of a sequence
    that satisfies a test. */
module Text {
  import opened Options

  /** Python's `str.isspace()` for one character: the characters that
      `str.strip()` with no argument removes. */
  predicate IsSpace(c: char) {
    || ('\t' <= c <= '\r')
    || ('\U{1C}' <= c <= ' ')
    || c == '\U{85}' || c == '\U{A0}' || c == '\U{1680}'
    || ('\U{2000}' <= c <= '\U{200A}')
    || c == '\U{2028}' || c == '\U{2029}' || c == '\U{202F}'
    || c == '\U{205F}' || c == '\U{3000}'
  }

  predicate AllSpace(s: string) {
    forall i :: 0 <= i < |s| ==> IsSpace(s[i])
  }

  /** Neither the first nor the last character is whitespace. */
  predicate NoOuterSpace(s: string) {
    s == [] || (!IsSpace(s[0]) && !IsSpace(s[|s| - 1]))
  }

  /** Removes leading whitespace: the result is the suffix of `s` that
      starts at its first non-space character. */
  function TrimStart(s: string): (r: string)
    ensures |r| <= |s| && r == s[|s| - |r|..]
    ensures AllSpace(s[..|s| - |r|])
    ensures r == [] || !IsSpace(r[0])
  {
    if |s| > 0 && IsSpace(s[0]) then
      var r := TrimStart(s[1..]);
      var k := |s| - |r|;
      assert s[1..][k - 1..] == s[k..];
      SpaceBefore(s, k);
      r
    else
      s
  }

  /** Removes trailing whitespace: the result is the prefix of `s` that
      ends at its last non-space character. */
  function TrimEnd(s: string): (r: string)
    ensures |r| <= |s| && r == s[..|r|]
    ensures AllSpace(s[|r|..])
    ensures r == [] || !IsSpace(r[|r| - 1])
  {
    if |s| > 0 && IsSpace(s[|s| - 1]) then
      var r := TrimEnd(s[..|s| - 1]);
      SpaceAfter(s, |r|);
      r
    else
      s
  }

  /** A whitespace first character extends a whitespace prefix of the rest. */
  lemma SpaceBefore(s: string, k: nat)
    requires 0 < k <= |s| && IsSpace(s[0]) && AllSpace(s[1..][..k - 1])
    ensures AllSpace(s[..k])
  {
    assert s[..k] == [s[0]] + s[1..][..k - 1];
  }

  /** A whitespace last character extends a whitespace suffix of the rest. */
  lemma SpaceAfter(s: string, k: nat)
    requires k < |s| && IsSpace(s[|s| - 1]) && AllSpace(s[..|s| - 1][k..])
    ensures AllSpace(s[k..])
  {
    assert s[k..] == s[..|s| - 1][k..] + [s[|s| - 1]];
  }

  /** `r` is a slice of `s` with nothing but whitespace before and after it. */
  ghost predicate SpaceAround(s: string, r: string) {
    exists i :: 0 <= i <= i + |r| <= |s| && s[i..i + |r|] == r
                && AllSpace(s[..i]) && AllSpace(s[i + |r|..])
  }

  /** Python's `str.strip()`: the slice of `s` left after removing the
      whitespace at both ends. */
  function Strip(s: string): (r: string)
    ensures NoOuterSpace(r)
    ensures SpaceAround(s, r)
  {
    StripWitness(s, TrimStart(s), TrimEnd(TrimStart(s)));
    TrimEnd(TrimStart(s))
  }

  /** The slice `TrimEnd(TrimStart(s))` sits at index `|s| - |t|`. */
  lemma StripWitness(s: string, t: string, r: string)
    requires |t| <= |s| && t == s[|s| - |t|..] && AllSpace(s[..|s| - |t|]) && (t == [] || !IsSpace(t[0]))
    requires |r| <= |t| && r == t[..|r|] && AllSpace(t[|r|..]) && (r == [] || !IsSpace(r[|r| - 1]))
    ensures NoOuterSpace(r)
    ensures SpaceAround(s, r)
  {
    var i := |s| - |t|;
    assert s[i..i + |r|] == r;
    assert s[i + |r|..] == t[|r|..];
    if r != [] {
      assert r[0] == t[0];
    }
  }

  /** `part` occurs in `s` starting at index `i`. */
  predicate OccursAt(s: string, part: string, i: int) {
    0 <= i <= |s| - |part| && s[i..i + |part|] == part
  }

  /** `part` occurs in `s` as a contiguous slice (Python's `part in s`). */
  ghost predicate Contains(s: string, part: string) {
    exists i :: OccursAt(s, part, i)
  }

  /** The middle of a three-part concatenation occurs in it. */
  lemma ContainsMiddle(a: string, part: string, b: string)
    ensures Contains(a + part + b, part)
  {
    assert OccursAt(a + part + b, part, |a|);
  }

  /** A string without outer whitespace is its own stripped form. */
  lemma StripKeepsUnpadded(s: string)
    requires NoOuterSpace(s)
    ensures Strip(s) == s
  {
  }

  lemma {:induction false} TrimStartSkipsSpace(p: string, s: string)
    requires AllSpace(p)
    ensures TrimStart(p + s) == TrimStart(s)
  {
    if p != [] {
      assert (p + s)[1..] == p[1..] + s;
      TrimStartSkipsSpace(p[1..], s);
    } else {
      assert p + s == s;
    }
  }

  lemma {:induction false} TrimEndSkipsSpace(s: string, q: string)
    requires AllSpace(q)
    ensures TrimEnd(s + q) == TrimEnd(s)
  {
    if q != [] {
      var q' := q[..|q| - 1];
      assert (s + q)[..|s + q| - 1] == s + q';
      TrimEndSkipsSpace(s, q');
    } else {
      assert s + q == s;
    }
  }

  lemma {:induction false} TrimStartKeepsTail(s: string, q: string)
    requires !AllSpace(s)
    ensures TrimStart(s + q) == TrimStart(s) + q
  {
    if IsSpace(s[0]) {
      assert (s + q)[1..] == s[1..] + q;
      TrimStartKeepsTail(s[1..], q);
    }
  }

  /** Whitespace added at either end does not change the stripped form:
      together with `StripKeepsUnpadded` this pins `Strip` down completely. */
  lemma StripIgnoresPadding(p: string, s: string, q: string)
    requires AllSpace(p) && AllSpace(q)
    ensures Strip(p + s + q) == Strip(s)
  {
    assert p + s + q == p + (s + q);
    TrimStartSkipsSpace(p, s + q);
    if AllSpace(s) {
      BlankTrimsAway(s, q);
    } else {
      TextKeepsTrailingPad(s, q);
    }
  }

  /** Only whitespace, with whitespace after it: both trim to nothing. */
  lemma BlankTrimsAway(s: string, q: string)
    requires AllSpace(s) && AllSpace(q)
    ensures TrimStart(s + q) == [] && TrimStart(s) == []
  {
    TrimStartSkipsSpace(s, q);
    assert TrimStart(q) == [] by { TrimStartSkipsSpace(q, []); assert q + [] == q; }
    assert TrimStart(s) == [] by { TrimStartSkipsSpace(s, []); assert s + [] == s; }
  }

  /** Text followed by whitespace: the whitespace is trimmed off the end. */
  lemma TextKeepsTrailingPad(s: string, q: string)
    requires !AllSpace(s) && AllSpace(q)
    ensures TrimEnd(TrimStart(s + q)) == TrimEnd(TrimStart(s))
  {
    TrimStartKeepsTail(s, q);
    TrimEndSkipsSpace(TrimStart(s), q);
  }

  /** Python's `s.split(sep, 1)` on a string that contains `sep`: the text
      before the first `sep` and the text after it; `None` when `sep` does
      not occur. */
  function SplitAtFirst(s: string, sep: char): (r: Option<(string, string)>)
    ensures r.None? <==> sep !in s
    ensures r.Some? ==> r.value.0 + [sep] + r.value.1 == s && sep !in r.value.0
  {
    if |s| == 0 then None
    else if s[0] == sep then
      assert [] + [sep] + s[1..] == s;
      Some(([], s[1..]))
    else
      match SplitAtFirst(s[1..], sep)
      case None => None
      case Some((a, b)) =>
        assert [s[0]] + a + [sep] + b == s;
        Some(([s[0]] + a, b))
  }

  /** A string has only one decomposition around its first separator. */
  lemma SplitUnique(x: string, y: string, a: string, b: string, sep: char)
    requires x + [sep] + y == a + [sep] + b
    requires sep !in x && sep !in a
    ensures x == a && y == b
  {
    var s := a + [sep] + b;
    assert s[|x|] == sep && s[|a|] == sep;
    assert forall i :: 0 <= i < |a| ==> s[i] == a[i] != sep;
    assert forall i :: 0 <= i < |x| ==> s[i] == x[i] != sep;
    assert x == s[..|a|] == a;
    assert y == s[|a| + 1..] == b;
  }

  /** Splitting inverts joining, provided the first half has no separator. */
  lemma SplitJoin(a: string, sep: char, b: string)
    requires sep !in a
    ensures SplitAtFirst(a + [sep] + b, sep) == Some((a, b))
  {
    var s := a + [sep] + b;
    assert s[|a|] == sep;
    var r := SplitAtFirst(s, sep);
    SplitUnique(r.value.0, r.value.1, a, b, sep);
  }

  /** The index of the first element of `s` that passes `p`, or `None` when
      none does. */
  function FirstWhere<T>(s: seq<T>, p: T -> bool): (r: Option<nat>)
    ensures r.None? <==> forall j :: 0 <= j < |s| ==> !p(s[j])
    ensures r.Some? ==> r.value < |s| && p(s[r.value])
    ensures r.Some? ==> forall j :: 0 <= j < r.value ==> !p(s[j])
  {
    if |s| == 0 then None
    else if p(s[0]) then Some(0)
    else
      match FirstWhere(s[1..], p)
      case None => None
      case Some(k) =>
        assert forall j :: 1 <= j <= k ==> s[j] == s[1..][j - 1];
        Some(k + 1)
  }

  /** The element found is the first one past a prefix of failures. */
  lemma FirstWhereAfter<T>(bad: seq<T>, x: T, rest: seq<T>, p: T -> bool)
    requires forall j :: 0 <= j < |bad| ==> !p(bad[j])
    requires p(x)
    ensures FirstWhere(bad + [x] + rest, p) == Some(|bad|)
  {
    var s := bad + [x] + rest;
    assert s[|bad|] == x;
    var r := FirstWhere(s, p);
    assert r.Some?;
  }
}

=== FILE: weather_agent.dfy ===
/** The weather agent of the package layout (agents/WeatherAgent.py): an
    availability gate in front of the shared stages, every collaborator
    exception caught, and one German message per way a request can end. */
module WeatherAgent {
  import opened Options
  import opened Numerals
  import opened Text
  import opened Collaborators
  import opened WeatherStages
  import WeatherV2

  /** A Nominatim lookup: a location, no result, or an exception. */
  datatype Geocoded = Found(at: Coordinates) | NotFound | GeocodeRaised

  /** The agent's dependencies; `None` is an attribute set to `None`. */
  datatype Agent = Agent(nlp: Option<string -> Parse>, geolocator: Option<string -> Geocoded>)

  const UnavailableMessage: string := "Wetteragent ist momentan nicht verfügbar."
  const NoCityMessage: string := "Ich konnte den Ort leider nicht erkennen."
  const FailedMessage: string := "Beim Abrufen der Wetterdaten ist ein Fehler aufgetreten."

  function NoCoordinatesMessage(city: string): string {
    "Ich konnte die Koordinaten für " + city + " nicht ermitteln."
  }

  function BadStatusMessage(status: int): string {
    BadStatusPrefix + Decimal(status) + ")."
  }

  const BadStatusPrefix: string := "Wetterdaten konnten nicht abgerufen werden (Status: "

  /** `__init__`: `spacy.load` yields a pipeline or raises (`None`), and so
      does building the Nominatim client. Any exception leaves both
      attributes `None`, even when the pipeline had already loaded. */
  function Construct(loadedNlp: Option<string -> Parse>, builtGeolocator: Option<string -> Geocoded>): (a: Agent)
    ensures a.nlp.Some? <==> a.geolocator.Some?
    ensures a.nlp.Some? <==> loadedNlp.Some? && builtGeolocator.Some?
    ensures a.nlp.Some? ==> a.nlp == loadedNlp && a.geolocator == builtGeolocator
  {
    if loadedNlp.Some? && builtGeolocator.Some? then Agent(loadedNlp, builtGeolocator)
    else Agent(None, None)
  }

  /** The gate `if not self.nlp or not self.geolocator` lets the call through. */
  predicate Ready(a: Agent) {
    a.nlp.Some? && a.geolocator.Some?
  }

  /** `get_city_from_utterance`: the first GPE entity's text, or `None` when
      there is none or spaCy raises. */
  function CityFromUtterance(nlp: string -> Parse, u: string): (r: Option<string>)
    ensures nlp(u).ParseRaised? ==> r.None?
    ensures nlp(u).Parsed? ==> r == FirstPlace(nlp(u).ents)
  {
    match nlp(u)
    case ParseRaised => None
    case Parsed(ents) => FirstPlace(ents)
  }

  /** `get_coordinates`: the location's coordinates, or `(None, None)` when
      there is no result or the lookup raises. */
  function GetCoordinates(geolocator: string -> Geocoded, city: string): (r: Option<Coordinates>)
    ensures r.Some? <==> geolocator(city).Found?
    ensures r.Some? ==> r.value == geolocator(city).at
  {
    match geolocator(city)
    case Found(at) => Some(at)
    case _ => None
  }

  /** `get_weather`, as the outcome and the calls made. */
  function GetWeather(a: Agent, weatherApi: Coordinates -> Fetched, u: string): (r: Run)
    ensures !Ready(a) <==> r.outcome.Unavailable?
    ensures !Ready(a) ==> r.calls == []
  {
    if !Ready(a) then Run(Unavailable, [])
    else
      var nlp := a.nlp.value;
      var geolocator := a.geolocator.value;
      RunStages(u, x => Gave(CityFromUtterance(nlp, x)), c => Gave(GetCoordinates(geolocator, c)), weatherApi)
  }

  /** The message `get_weather` returns for an outcome. Every message is
      non-empty, and each one that carries data shows it: the city that
      could not be located, the status code, the city and its temperature. */
  function Message(o: Outcome): (m: string)
    ensures |m| > 0
    ensures o.NoCoordinates? ==> Contains(m, o.city)
    ensures o.BadStatus? ==> Contains(m, Decimal(o.status))
    ensures o.Reported? ==> Contains(m, o.city) && Contains(m, o.temperature)
  {
    match o
    case Unavailable => UnavailableMessage
    case NoCity => NoCityMessage
    case NoCoordinates(city) =>
      ContainsMiddle("Ich konnte die Koordinaten für ", city, " nicht ermitteln.");
      NoCoordinatesMessage(city)
    case BadStatus(status) =>
      ContainsMiddle(BadStatusPrefix, Decimal(status), ").");
      BadStatusMessage(status)
    case Reported(city, temperature) =>
      SentenceShowsReading(city, temperature);
      TemperatureSentence(city, temperature)
    case Failed => FailedMessage
  }

  /** The success sentence names the city and its temperature. */
  lemma SentenceShowsReading(city: string, temperature: string)
    ensures Contains(TemperatureSentence(city, temperature), city)
    ensures Contains(TemperatureSentence(city, temperature), temperature)
  {
    var pre := "Die aktuelle Temperatur in ";
    var rest := " beträgt " + temperature + "°C.";
    assert TemperatureSentence(city, temperature) == pre + city + rest;
    ContainsMiddle(pre, city, rest);
    ContainsMiddle(pre + city + " beträgt ", temperature, "°C.");
  }

  /** `get_weather` itself: always a string, never an exception. */
  function Respond(a: Agent, weatherApi: Coordinates -> Fetched, u: string): (m: string)
    ensures |m| > 0
  {
    Message(GetWeather(a, weatherApi, u).outcome)
  }

  /** A failed construction closes the gate for good: every later call,
      whatever the utterance and the services, answers "unavailable" and
      calls nothing. */
  lemma FailedConstructionGatesEveryCall(loadedNlp: Option<string -> Parse>,
                                         builtGeolocator: Option<string -> Geocoded>)
    requires loadedNlp.None? || builtGeolocator.None?
    ensures forall weatherApi, u :: GetWeather(Construct(loadedNlp, builtGeolocator), weatherApi, u)
                                    == Run(Unavailable, [])
  {
  }

  /** No city, or spaCy raising: the "place not recognised" message, and
      neither the geocoder nor the forecast service is called. */
  lemma NoCityStopsEarly(a: Agent, weatherApi: Coordinates -> Fetched, u: string)
    requires Ready(a)
    requires a.nlp.value(u).ParseRaised? || !Recognised(FirstPlace(a.nlp.value(u).ents))
    ensures GetWeather(a, weatherApi, u).calls == [Extract(u)]
    ensures Respond(a, weatherApi, u) == NoCityMessage
  {
  }

  /** A city with no location, a failing lookup or a zero coordinate: a
      message naming the city, and no forecast request. */
  lemma NoCoordinatesNamesCity(a: Agent, weatherApi: Coordinates -> Fetched, u: string, city: string)
    requires Ready(a)
    requires a.nlp.value(u).Parsed? && FirstPlace(a.nlp.value(u).ents) == Some(city) && city != ""
    requires !Located(GetCoordinates(a.geolocator.value, city))
    ensures GetWeather(a, weatherApi, u).calls == [Extract(u), Geocode(city)]
    ensures Respond(a, weatherApi, u) == NoCoordinatesMessage(city)
    ensures Contains(Respond(a, weatherApi, u), city)
  {
    ContainsMiddle("Ich konnte die Koordinaten für ", city, " nicht ermitteln.");
  }

  /** A forecast status other than 200: a message containing the status,
      after exactly one call to each service. */
  lemma BadStatusIsReported(a: Agent, weatherApi: Coordinates -> Fetched, u: string,
                            city: string, at: Coordinates, status: int)
    requires Ready(a)
    requires a.nlp.value(u).Parsed? && FirstPlace(a.nlp.value(u).ents) == Some(city) && city != ""
    requires a.geolocator.value(city) == Found(at) && Located(Some(at))
    requires weatherApi(at).Fetched? && weatherApi(at).status == status && status != 200
    ensures GetWeather(a, weatherApi, u).calls == [Extract(u), Geocode(city), Fetch(at)]
    ensures Respond(a, weatherApi, u) == BadStatusMessage(status)
    ensures Contains(Respond(a, weatherApi, u), Decimal(status))
  {
    ContainsMiddle(BadStatusPrefix, Decimal(status), ").");
  }

  /** A 200 response with a temperature: the temperature sentence. */
  lemma TemperatureIsReported(a: Agent, weatherApi: Coordinates -> Fetched, u: string,
                              city: string, at: Coordinates, temperature: string)
    requires Ready(a)
    requires a.nlp.value(u).Parsed? && FirstPlace(a.nlp.value(u).ents) == Some(city) && city != ""
    requires a.geolocator.value(city) == Found(at) && Located(Some(at))
    requires weatherApi(at) == Fetched(200, Some(temperature))
    ensures Respond(a, weatherApi, u) == TemperatureSentence(city, temperature)
  {
  }

  /** The catch-all: a failing forecast request, or a 200 response without
      a temperature, gives the generic message instead of an exception. */
  lemma FetchFailureIsCaught(a: Agent, weatherApi: Coordinates -> Fetched, u: string,
                             city: string, at: Coordinates)
    requires Ready(a)
    requires a.nlp.value(u).Parsed? && FirstPlace(a.nlp.value(u).ents) == Some(city) && city != ""
    requires a.geolocator.value(city) == Found(at) && Located(Some(at))
    requires weatherApi(at) == FetchRaised || weatherApi(at) == Fetched(200, None)
    ensures Respond(a, weatherApi, u) == FailedMessage
  {
  }

  /** Which of the six ways a request ended, as a number. */
  function Kind(o: Outcome): nat {
    match o
    case Unavailable => 0
    case NoCity => 1
    case NoCoordinates(_) => 2
    case BadStatus(_) => 3
    case Reported(_, _) => 4
    case Failed => 5
  }

  /** Reads the kind of outcome off a message: the messages differ in their
      first, seventh or thirteenth character. */
  function KindOfMessage(m: string): nat
    requires |m| > 12
  {
    if m[0] == 'W' then (if m[6] == 'a' then 0 else 3)
    else if m[0] == 'I' then (if m[12] == 'e' then 1 else 2)
    else if m[0] == 'D' then 4
    else 5
  }

  /** The characters `KindOfMessage` reads come from a long enough prefix. */
  lemma ReadsPrefix(p: string, rest: string)
    requires |p| > 12
    ensures |p + rest| > 12
    ensures (p + rest)[0] == p[0] && (p + rest)[6] == p[6] && (p + rest)[12] == p[12]
  {
  }

  lemma UnavailableKind()
    ensures |UnavailableMessage| > 12 && KindOfMessage(UnavailableMessage) == 0
  {
    var head := "Wetteragent ist momentan nicht ";
    assert UnavailableMessage == head + "verfügbar.";
    ReadsPrefix(head, "verfügbar.");
  }

  lemma NoCityKind()
    ensures |NoCityMessage| > 12 && KindOfMessage(NoCityMessage) == 1
  {
    var head := "Ich konnte den Ort leider nicht ";
    assert NoCityMessage == head + "erkennen.";
    ReadsPrefix(head, "erkennen.");
  }

  lemma NoCoordinatesKind(city: string)
    ensures |NoCoordinatesMessage(city)| > 12 && KindOfMessage(NoCoordinatesMessage(city)) == 2
  {
    var pre := "Ich konnte die Koordinaten für ";
    assert NoCoordinatesMessage(city) == pre + (city + " nicht ermitteln.");
    ReadsPrefix(pre, city + " nicht ermitteln.");
  }

  lemma BadStatusKind(status: int)
    ensures |BadStatusMessage(status)| > 12 && KindOfMessage(BadStatusMessage(status)) == 3
  {
    var head := "Wetterdaten konnten nicht abgerufen werden ";
    assert BadStatusPrefix == head + "(Status: ";
    ReadsPrefix(head, "(Status: ");
    var tail := Decimal(status) + ").";
    assert BadStatusMessage(status) == BadStatusPrefix + tail;
    ReadsPrefix(BadStatusPrefix, tail);
  }

  lemma ReportedKind(city: string, temperature: string)
    ensures |TemperatureSentence(city, temperature)| > 12
    ensures KindOfMessage(TemperatureSentence(city, temperature)) == 4
  {
    var pre := "Die aktuelle Temperatur in ";
    var rest := city + " beträgt " + temperature + "°C.";
    assert TemperatureSentence(city, temperature) == pre + rest;
    ReadsPrefix(pre, rest);
  }

  lemma FailedKind()
    ensures |FailedMessage| > 12 && KindOfMessage(FailedMessage) == 5
  {
    var head := "Beim Abrufen der Wetterdaten ist ein Fehler ";
    assert FailedMessage == head + "aufgetreten.";
    ReadsPrefix(head, "aufgetreten.");
  }

  lemma KindIsReadable(o: Outcome)
    ensures |Message(o)| > 12 && KindOfMessage(Message(o)) == Kind(o)
  {
    match o
    case NoCoordinates(city) => NoCoordinatesKind(city);
    case BadStatus(status) => BadStatusKind(status);
    case Reported(city, temperature) => ReportedKind(city, temperature);
    case Failed => FailedKind();
    case Unavailable => UnavailableKind();
    case NoCity => NoCityKind();
  }

  /** The message tells the user how the request ended, and with what city
      or status; only the success sentence can be ambiguous, because a city
      name may itself contain the words around the temperature. */
  lemma MessageIdentifiesOutcome(o1: Outcome, o2: Outcome)
    requires !o1.Reported?
    requires Message(o1) == Message(o2)
    ensures o1 == o2
  {
    KindIsReadable(o1);
    KindIsReadable(o2);
    match o1
    case NoCoordinates(c1) =>
      var c2 := o2.city;
      var pre := "Ich konnte die Koordinaten für ";
      assert c1 == Message(o1)[|pre|..|pre| + |c1|];
      assert c2 == Message(o2)[|pre|..|pre| + |c2|];
    case BadStatus(s1) =>
      var s2 := o2.status;
      var pre := BadStatusPrefix;
      assert Decimal(s1) == Message(o1)[|pre|..|pre| + |Decimal(s1)|];
      assert Decimal(s2) == Message(o2)[|pre|..|pre| + |Decimal(s2)|];
      DecimalInjective(s1, s2);
    case _ =>
  }

  /** The package agent's view of the single-file agent's geocoding request:
      a transport failure becomes an exception of the lookup, and the
      selected result (if any) becomes the location. */
  function AsGeolocator(api: string -> WeatherV2.GeoReply): string -> Geocoded {
    city =>
      match api(city)
      case GeoUnreachable => GeocodeRaised
      case GeoReply(status, results) =>
        match WeatherV2.SelectCoordinates(status, results)
        case None => NotFound
        case Some(at) => Found(at)
  }

  /** Given the same collaborators, the package agent makes the same calls as
      the single-file agent and ends the same way, except that where the
      single-file agent raises, the package agent answers with the stage's
      own message or the generic one. */
  lemma CatchesWhatV2Raises(svc: WeatherV2.Services, u: string)
    ensures var v := WeatherV2.GetWeather(svc, u);
            var w := GetWeather(Agent(Some(svc.nlp), Some(AsGeolocator(svc.geocodeApi))), svc.weatherApi, u);
            && w.calls == v.calls
            && (!v.outcome.Failed? ==> w.outcome == v.outcome)
            && (v.outcome.Failed? ==> w.outcome.NoCity? || w.outcome.NoCoordinates? || w.outcome.Failed?)
  {
  }
}

=== FILE: weather_stages.dfy ===
/** The weather pipeline both weather responders share: extract a city from
    the utterance, geocode it, fetch the current weather there. Each stage
    can end the request early; the two responders differ only in which
    collaborator failures surface as exceptions and in the wording of their
    messages (modules `WeatherV2` and `WeatherAgent`). */
module WeatherStages {
  import opened Options
  import opened Collaborators

  /** The result of a stage whose exceptions the caller does not catch. */
  datatype Attempt<+T> = Threw | Gave(value: T)

  /** How a weather request ended. */
  datatype Outcome =
    | Unavailable                                 // dependency gate closed
    | NoCity                                      // stage 1 found no city
    | NoCoordinates(city: string)                 // stage 2 found no coordinates
    | BadStatus(status: int)                      // stage 3 got a non-200 status
    | Reported(city: string, temperature: string) // the current temperature
    | Failed                                      // an exception in some stage

  /** An outcome and the collaborator calls made to reach it, in order. */
  datatype Run = Run(outcome: Outcome, calls: seq<Call>)

  /** Python's `if not city` fails for `None` and for the empty string. */
  predicate Recognised(city: Option<string>) {
    city.Some? && city.value != ""
  }

  /** Python's `if not latitude or not longitude` fails for `None` and for a
      zero coordinate. */
  predicate Located(at: Option<Coordinates>) {
    at.Some? && at.value.latitude != 0.0 && at.value.longitude != 0.0
  }

  /** The success sentence, identical in both responders. */
  function TemperatureSentence(city: string, temperature: string): string {
    "Die aktuelle Temperatur in " + city + " beträgt " + temperature + "°C."
  }

  /** Stage 3: the forecast response decides the outcome. */
  function FetchStage(city: string, fetched: Fetched): (o: Outcome)
    ensures o.Reported? <==> fetched.Fetched? && fetched.status == 200 && fetched.temperature.Some?
    ensures o.Reported? ==> o.city == city && o.temperature == fetched.temperature.value
    ensures o.BadStatus? <==> fetched.Fetched? && fetched.status != 200
    ensures o.BadStatus? ==> o.status == fetched.status
    ensures o.Failed? || o.Reported? || o.BadStatus?
  {
    match fetched
    case FetchRaised => Failed
    case Fetched(status, temperature) =>
      if status != 200 then BadStatus(status)
      else if temperature.None? then Failed
      else Reported(city, temperature.value)
  }

  /** The three stages in order. `extract` yields the city of an utterance,
      `locate` the coordinates of a city, `fetch` the forecast response for
      coordinates. A stage runs only when every earlier stage produced a
      usable value, and the trace says how far the request got. */
  function RunStages(u: string, extract: string -> Attempt<Option<string>>,
                     locate: string -> Attempt<Option<Coordinates>>,
                     fetch: Coordinates -> Fetched): (r: Run)
    ensures 1 <= |r.calls| <= 3 && r.calls[0] == Extract(u)
    ensures !r.outcome.Unavailable?
    ensures r.outcome.NoCity? ==> |r.calls| == 1
    ensures r.outcome.NoCoordinates? ==> |r.calls| == 2 && r.calls[1] == Geocode(r.outcome.city)
    ensures r.outcome.BadStatus? || r.outcome.Reported? ==> |r.calls| == 3
    ensures r.outcome.Reported? ==> r.calls[1] == Geocode(r.outcome.city)
    ensures |r.calls| >= 2 ==> r.calls[1].Geocode? && Recognised(Some(r.calls[1].place))
    ensures |r.calls| == 3 ==> r.calls[2].Fetch? && Located(Some(r.calls[2].at))
    // geocode only the extracted city, fetch only at its located coordinates,
    // and report what the fetch returned
    ensures |r.calls| >= 2 <==> extract(u).Gave? && Recognised(extract(u).value)
    ensures |r.calls| >= 2 ==> r.calls[1] == Geocode(extract(u).value.value)
    ensures |r.calls| >= 2 ==>
              (|r.calls| == 3 <==> locate(r.calls[1].place).Gave? && Located(locate(r.calls[1].place).value))
    ensures |r.calls| == 3 ==> r.calls[2] == Fetch(locate(r.calls[1].place).value.value)
    ensures |r.calls| == 3 ==> r.outcome == FetchStage(r.calls[1].place, fetch(r.calls[2].at))
  {
    match extract(u)
    case Threw => Run(Failed, [Extract(u)])
    case Gave(city) =>
      if !Recognised(city) then Run(NoCity, [Extract(u)])
      else
        var name := city.value;
        match locate(name)
        case Threw => Run(Failed, [Extract(u), Geocode(name)])
        case Gave(at) =>
          if !Located(at) then Run(NoCoordinates(name), [Extract(u), Geocode(name)])
          else Run(FetchStage(name, fetch(at.value)), [Extract(u), Geocode(name), Fetch(at.value)])
  }
}

=== FILE: weather_v2.dfy ===
/** The weather agent of the single-file application (eeumel_v2.py): the
    three stages with no exception handling, so a failing collaborator
    raises out of `get_weather`, and both early exits say
    "Location not found.". */
module WeatherV2 {
  import opened Options
  import opened Numerals
  import opened Collaborators
  import opened WeatherStages

  /** The OpenWeatherMap geocoding request: an exception from
      `requests.get`, or a status code and the JSON list of results. */
  datatype GeoReply = GeoUnreachable | GeoReply(status: int, results: seq<Coordinates>)

  /** The collaborators the agent calls: the spaCy pipeline loaded at
      construction, the geocoding endpoint and the forecast endpoint. */
  datatype Services = Services(nlp: string -> Parse,
                               geocodeApi: string -> GeoReply,
                               weatherApi: Coordinates -> Fetched)

  const LocationNotFound: string := "Location not found."
  const WeatherErrorPrefix: string := "Error retrieving weather data: "

  /** `get_city_from_utterance`: the first GPE entity's text; an exception
      from spaCy propagates. */
  function CityFromUtterance(nlp: string -> Parse, u: string): (r: Attempt<Option<string>>)
    ensures r.Threw? <==> nlp(u).ParseRaised?
    ensures r.Gave? ==> r.value == FirstPlace(nlp(u).ents)
  {
    match nlp(u)
    case ParseRaised => Threw
    case Parsed(ents) => Gave(FirstPlace(ents))
  }

  /** The result selection of `get_coordinates`: the first result when the
      status is 200 and the list is non-empty, otherwise `(None, None)`. */
  function SelectCoordinates(status: int, results: seq<Coordinates>): (r: Option<Coordinates>)
    ensures r.Some? <==> status == 200 && |results| > 0
    ensures r.Some? ==> r.value == results[0]
  {
    if status == 200 && |results| > 0 then Some(results[0]) else None
  }

  /** `get_coordinates`: a transport failure propagates. */
  function GetCoordinates(api: string -> GeoReply, city: string): (r: Attempt<Option<Coordinates>>)
    ensures r.Threw? <==> api(city).GeoUnreachable?
    ensures r.Gave? ==> r.value == SelectCoordinates(api(city).status, api(city).results)
  {
    match api(city)
    case GeoUnreachable => Threw
    case GeoReply(status, results) => Gave(SelectCoordinates(status, results))
  }

  /** `get_weather`: the shared stages with this agent's collaborators.
      spaCy runs first, and a failing spaCy run is the only way the request
      can end without consulting the geocoding service. */
  function GetWeather(svc: Services, u: string): (r: Run)
    ensures !r.outcome.Unavailable?
    ensures 1 <= |r.calls| <= 3 && r.calls[0] == Extract(u)
    ensures svc.nlp(u).ParseRaised? ==> r == Run(Failed, [Extract(u)])
    ensures |r.calls| >= 2 <==> svc.nlp(u).Parsed? && Recognised(FirstPlace(svc.nlp(u).ents))
    ensures |r.calls| >= 2 ==> r.calls[1] == Geocode(FirstPlace(svc.nlp(u).ents).value)
    ensures r.outcome.NoCity? <==> svc.nlp(u).Parsed? && !Recognised(FirstPlace(svc.nlp(u).ents))
  {
    RunStages(u, x => CityFromUtterance(svc.nlp, x), c => GetCoordinates(svc.geocodeApi, c), svc.weatherApi)
  }

  /** What `get_weather` hands back for an outcome; this agent has no
      availability gate, so it never reports `Unavailable`. */
  function ReplyOf(o: Outcome): (r: Reply)
    requires !o.Unavailable?
    ensures r.Raised? <==> o.Failed?
  {
    match o
    case NoCity => Returned(LocationNotFound)
    case NoCoordinates(_) => Returned(LocationNotFound)
    case BadStatus(status) => Returned(WeatherErrorPrefix + Decimal(status))
    case Reported(city, temperature) => Returned(TemperatureSentence(city, temperature))
    case Failed => Raised
  }

  /** No city in the utterance: "Location not found." and neither the
      geocoder nor the forecast service is called. */
  lemma NoCityStopsEarly(svc: Services, u: string)
    requires svc.nlp(u).Parsed?
    requires !Recognised(FirstPlace(svc.nlp(u).ents))
    ensures GetWeather(svc, u).calls == [Extract(u)]
    ensures ReplyOf(GetWeather(svc, u).outcome) == Returned(LocationNotFound)
  {
  }

  /** A city whose coordinates are missing or zero: "Location not found."
      and no forecast request. */
  lemma NoCoordinatesStopsBeforeFetch(svc: Services, u: string, city: string)
    requires svc.nlp(u).Parsed? && FirstPlace(svc.nlp(u).ents) == Some(city) && city != ""
    requires svc.geocodeApi(city).GeoReply?
    requires !Located(SelectCoordinates(svc.geocodeApi(city).status, svc.geocodeApi(city).results))
    ensures GetWeather(svc, u).calls == [Extract(u), Geocode(city)]
    ensures ReplyOf(GetWeather(svc, u).outcome) == Returned(LocationNotFound)
  {
  }

  /** A forecast status other than 200 is reported with its number, and
      different statuses give different messages. */
  lemma BadStatusIsReported(svc: Services, u: string, city: string, at: Coordinates, status: int)
    requires svc.nlp(u).Parsed? && FirstPlace(svc.nlp(u).ents) == Some(city) && city != ""
    requires svc.geocodeApi(city).GeoReply?
    requires SelectCoordinates(svc.geocodeApi(city).status, svc.geocodeApi(city).results) == Some(at)
    requires Located(Some(at))
    requires svc.weatherApi(at).Fetched? && svc.weatherApi(at).status == status && status != 200
    ensures GetWeather(svc, u).calls == [Extract(u), Geocode(city), Fetch(at)]
    ensures ReplyOf(GetWeather(svc, u).outcome) == Returned(WeatherErrorPrefix + Decimal(status))
    ensures forall other :: other != status ==>
              ReplyOf(GetWeather(svc, u).outcome) != ReplyOf(BadStatus(other))
  {
    forall other | other != status
      ensures Returned(WeatherErrorPrefix + Decimal(status)) != ReplyOf(BadStatus(other))
    {
      if WeatherErrorPrefix + Decimal(status) == WeatherErrorPrefix + Decimal(other) {
        assert Decimal(status) == (WeatherErrorPrefix + Decimal(status))[|WeatherErrorPrefix|..];
        assert Decimal(other) == (WeatherErrorPrefix + Decimal(other))[|WeatherErrorPrefix|..];
        DecimalInjective(status, other);
      }
    }
  }

  /** With a city, non-zero coordinates and a 200 response carrying a
      temperature, the answer is the temperature sentence for that city. */
  lemma TemperatureIsReported(svc: Services, u: string, city: string, at: Coordinates, temperature: string)
    requires svc.nlp(u).Parsed? && FirstPlace(svc.nlp(u).ents) == Some(city) && city != ""
    requires svc.geocodeApi(city).GeoReply?
    requires SelectCoordinates(svc.geocodeApi(city).status, svc.geocodeApi(city).results) == Some(at)
    requires Located(Some(at))
    requires svc.weatherApi(at) == Fetched(200, Some(temperature))
    ensures GetWeather(svc, u).calls == [Extract(u), Geocode(city), Fetch(at)]
    ensures ReplyOf(GetWeather(svc, u).outcome) == Returned(TemperatureSentence(city, temperature))
  {
  }

  /** `get_weather` raises exactly when spaCy raises, when the geocoding
      request for a recognised city fails in transport, or when the forecast
      request fails or its 200 response lacks the temperature. */
  lemma RaisesExactlyOnCollaboratorFailure(svc: Services, u: string)
    ensures ReplyOf(GetWeather(svc, u).outcome).Raised? <==>
      || svc.nlp(u).ParseRaised?
      || (svc.nlp(u).Parsed? && Recognised(FirstPlace(svc.nlp(u).ents)) &&
          var city := FirstPlace(svc.nlp(u).ents).value;
          match svc.geocodeApi(city)
          case GeoUnreachable => true
          case GeoReply(status, results) =>
            var at := SelectCoordinates(status, results);
            Located(at) && FetchStage(city, svc.weatherApi(at.value)).Failed?)
  {
  }

  /** The two early exits cannot be told apart by their message. */
  lemma EarlyExitsShareMessage(city: string)
    ensures ReplyOf(NoCity) == ReplyOf(NoCoordinates(city))
  {
  }
}
